=== FILE: README.md ===
# AWSRoleIdentity: a Dafny model

This project models the assume-role identity of the cluster-api AWS provider's `v1alpha3` API
(`api/v1alpha3/awsrole_types.go`). An `AWSRoleIdentity` declares how to assume an IAM role:
role ARN, session name, duration, inline policy, attached policy ARNs, external ID, session
tags, transitive tag keys and a source-identity reference. It offers three operations:

- `Hash`: a fingerprint of the declared fields;
- `IsExpired`: whether credentials need refreshing;
- `Retrieve`: fetch temporary credentials, building the SDK's assume-role provider on first use.

Modules, one per concern:

- `Wrappers` (`wrappers.dfy`): `Option` and `Result`.
- `GoInt` (`goint.dfy`): Go's 64-bit integer conversions and multiplication, with explicit wrap-around.
- `RoleTypes` (`role_types.dfy`): the declared fields (`AWSRole`, `RoleIdentity`), the parameter
  record set on the SDK provider (`AssumeRoleParams`), and the run-time state `IdentityState`.
  That state is the declared fields plus an `Option<Provider>` slot.
- `AssumeRole` (`assume_role.dfy`): `setNewAssumeRoleProvider` as the pure function `BuildParams`,
  with its loops as `PolicyDescriptors` and `TagList` and its duration conversion as `DurationNanos`.
- `RoleProvider` (`role_provider.dfy`): `IsExpired` and `Retrieve` over `IdentityState`.
  `Run` replays a sequence of calls and counts provider constructions.
- `Fingerprint` (`fingerprint.dfy`): `Hash` as written, and the corrected digest.

Collaborators outside this code are inputs to the model:

- the gob encoder is a function `Encoder` from the declared fields to bytes or an error;
- the SDK provider's expiry check and fetch are the two functions of an `Sdk` value;
- Go's map iteration order over the session tags is a sequence `order`, constrained by
  `IsIterationOrder` to visit every key exactly once.

Points where the code's behaviour may surprise a reader:

- The provider built from the fields is never given `ExternalID` or `SourceIdentitySecretName`
  (awsrole_types.go:91-99). `BuildParamsIgnoresExternalIdAndSource` states this.
- Transitive tag keys are an ordered list passed through unchanged, not a set.
- The code has no reset method. Assigning new values to the exported fields (`Edit`) leaves the built
  provider in place. Replacing the whole value with a composite literal (`Replace`) zeroes the unexported
  slot, so the next retrieval builds a new provider.
- `Hash` returns the encoding followed by SHA-256 of the empty input, not a digest (see Findings).

## Model

| member | source | states |
|---|---|---|
| AssumeRole.PolicyDescriptors | api/v1alpha3/awsrole_types.go:76-79 | one descriptor per attached policy ARN, same length, element k names ARN k |
| AssumeRole.DescriptorArnsRoundTrip | api/v1alpha3/awsrole_types.go:76-79 | reading the ARNs back out of the descriptors gives the attached policy list unchanged |
| AssumeRole.TagList | api/v1alpha3/awsrole_types.go:80-86 | one tag per visited key, in visiting order, each carrying that key's value in the map |
| AssumeRole.TagListMatchesMap | api/v1alpha3/awsrole_types.go:80-86 | the tag list has exactly as many entries as the map, no key twice, and a tag is in it iff it is an entry of the map |
| AssumeRole.TagListOrderIrrelevant | api/v1alpha3/awsrole_types.go:81 | any two iteration orders give tag lists of equal length holding the same tags, whose (key, value) set is the map's items |
| AssumeRole.DurationNanos | api/v1alpha3/awsrole_types.go:96 | the session duration as a Go int64 `time.Duration`: always within int64 range, and exactly seconds × 10^9 whenever seconds ≤ 9223372036 |
| AssumeRole.DurationExactIff | api/v1alpha3/awsrole_types.go:96 | the int64 duration equals seconds × 10^9 exactly when seconds ≤ 9223372036; above that the conversion wraps |
| AssumeRole.DurationWithinSchemaBounds | api/v1alpha3/awsrole_types.go:21-24 | for 900..43200 seconds the duration is exact and lies between 9×10^11 and 4.32×10^13 ns, so no overflow |
| AssumeRole.BuildParams | api/v1alpha3/awsrole_types.go:75-100 | role ARN and session name copied; policy always present and equal to the inline policy, even when empty; transitive keys equal in length and order; descriptors mirror the ARN list; tags are exactly the map's entries; duration exact whenever it fits |
| AssumeRole.BuildParamsOrderIrrelevant | api/v1alpha3/awsrole_types.go:80-99 | two tag iteration orders give parameters equal in every field but the tag order, with the same tags |
| AssumeRole.BuildParamsIgnoresExternalIdAndSource | api/v1alpha3/awsrole_types.go:91-99 | external ID and source-identity reference never reach the provider parameters |
| AssumeRole.AliasedLoopValues | api/v1alpha3/awsrole_types.go:77-78 | under a shared loop variable, every appended pointer reads the last element |
| AssumeRole.AliasedLoopValuesLoseEntries | api/v1alpha3/awsrole_types.go:77-78 | the aliased list equals the input iff all entries equal the last one; ["a","b"] becomes ["b","b"] |
| AssumeRole.AliasedDescriptorsDisagree | api/v1alpha3/awsrole_types.go:76-79 | with two different policy ARNs, the aliased descriptors differ from the per-element ones |
| RoleProvider.IsExpired | api/v1alpha3/awsrole_types.go:61-66 | expired whenever no provider is built; otherwise exactly the provider's own verdict on its parameters |
| RoleProvider.FreshIdentityIsExpired | api/v1alpha3/awsrole_types.go:61-64 | a freshly declared identity reports expired, whatever the SDK would answer |
| RoleProvider.IsExpiredAfterFirstRetrieve | api/v1alpha3/awsrole_types.go:61-73 | after the first retrieval, expiry is the SDK's verdict on the parameters built from the fields at that retrieval |
| RoleProvider.Retrieve | api/v1alpha3/awsrole_types.go:68-73 | declared fields unchanged; slot filled with a provider built from the current fields only when empty, otherwise kept; the result is exactly the provider's fetch outcome, error included |
| RoleProvider.SecondRetrieveReusesProvider | api/v1alpha3/awsrole_types.go:68-73 | a second retrieval after editing the declared fields reuses the first provider and fetches with the original parameters |
| RoleProvider.RunBuildsAtMostOnce | api/v1alpha3/awsrole_types.go:68-73 | over any sequence of calls, at most one provider more is constructed than there are whole-value replacements; without replacements at most one, exactly one iff the slot started empty and some call retrieves, and a built provider survives unchanged |
| RoleProvider.ReplaceStartsNewBuild | api/v1alpha3/awsrole_types.go:33-47 | retrieve, replace the whole value, retrieve: the slot ends with a provider built from the new fields, and a second construction happens |
| RoleProvider.RunKeepsFirstBuild | api/v1alpha3/awsrole_types.go:68-73 | unless the whole value is replaced afterwards, the final provider is the one built at the first retrieval, from the fields current then, whatever field edits follow |
| Fingerprint.Hash | api/v1alpha3/awsrole_types.go:51-59 | on an encoding error, empty output and that error; otherwise the encoding followed by the 32-byte SHA-256 of the empty input, so |enc| + 32 bytes and never empty |
| Fingerprint.HashIgnoresProvider | api/v1alpha3/awsrole_types.go:36 | the hash does not depend on the provider slot, which gob does not encode |
| Fingerprint.HashUnaffectedByRetrieve | api/v1alpha3/awsrole_types.go:51-73 | retrieving credentials does not change the hash |
| Fingerprint.HashInjective | api/v1alpha3/interfaces.go:9-11 | with an injective encoder, two successful hashes agree iff the declared fields are equal ("unique hash") |
| Fingerprint.ExternalIdChangesHash | api/v1alpha3/awsrole_types.go:51-59 | identities differing only in external ID "a" vs "b" hash differently under an injective encoder |
| Fingerprint.ZeroIdentityHashNonEmpty | api/v1alpha3/awsrole_test.go:19-26 | the zero-valued identity hashes without error to a non-empty value when the encoder accepts it |
| Fingerprint.HashIsNotADigest | api/v1alpha3/awsrole_types.go:57-58 | the hash starts with the plain encoding, and is 32 bytes long iff the encoding is empty |
| Fingerprint.CorrectedHash | api/v1alpha3/awsrole_types.go:57-58 | the intended fingerprint: same error behaviour, and on success always exactly 32 bytes |
| Fingerprint.CorrectedHashDependsOnFieldsOnly | api/v1alpha3/interfaces.go:9-11 | equal declared fields give equal corrected fingerprints whatever the provider slots hold |
| Fingerprint.CorrectedHashFixedLength | api/v1alpha3/awsrole_types.go:51-58 | the corrected fingerprint fails exactly when the written hash fails, and is digest-length on success |

## Left out

- Gob encoding and SHA-256 are not computed. The encoder is an input; SHA-256 appears only
  as its constant value on the empty input, and the corrected digest is an input too.
  Gob writes a map in Go's randomised iteration order, so the real `Hash` is not
  deterministic once `Tags` has two or more entries. The determinism and injectivity stated
  here hold only relative to the encoder given.
- The SDK's `stscreds.AssumeRoleProvider` is out of scope: its credential cache, its expiry clock, the
  STS network call, and any defaults (session name, duration) it writes into itself when fetching
  with an empty session name or a zero duration. What it answers for given parameters is the `Sdk` input of each call.
- RoleProvider.Retrieve: the provider literal at api/v1alpha3/awsrole_types.go:91-99 sets no STS client.
  In the SDK, fetching through a provider without a client may fail outright instead of returning an
  error. The `Sdk` input assumes the provider can fetch at all; the SDK's code is not part of this model.
- Go pointers are not modelled. `BuildParams` maps each element by value; `AliasedLoopValues`
  models what the pointers read under a shared loop variable (see Findings).
- The schema's validation markers (patterns, minimum and maximum) are not checked by this code.
  Only the 900..43200 duration bounds are used, as the precondition of `DurationWithinSchemaBounds`.
- Concurrency is not modelled. The check-then-act in `Retrieve` has no guard, so the model covers single-threaded use only.
- The `AWSIdentityTypeProvider` interface (api/v1alpha3/interfaces.go:7-12) is not a separate type.
  Only one identity kind exists, so its three operations are the plain functions `Hash`, `IsExpired` and `Retrieve`.
- RoleProvider.Retrieve: a fetch may update the SDK provider's own state (its credential cache, and
  the default session name and duration it fills in when those are empty or zero); the model keeps
  the provider value unchanged, and the SDK's state is whatever the next call's `Sdk` answers.
- Fingerprint.Hash: `RoleIdentity` has one value for "no tags", while Go has two, a nil `Tags` map and an
  empty non-nil one. gob encodes an empty non-nil map but omits a nil one, so Go's `Hash` tells them
  apart and the model's cannot: every `Encoder` sees the same input for both. Empty slices are not
  affected, because gob omits every empty slice.
- RoleProvider.Retrieve: the inline policy is always sent, as a non-nil pointer to `""` when none is
  declared. The STS request validation in the SDK may reject a policy shorter than one character, in
  which case such fetches fail; `Sdk.retrieve` is arbitrary and covers that outcome too.
- Assigning another identity value (`*i = *j`) copies that value's provider slot, because Go struct
  assignment copies unexported fields. It is not one of the modelled calls; across such an assignment
  the replace-free clauses of `RunBuildsAtMostOnce` and `RunKeepsFirstBuild` do not apply.
- Go's `uint` is taken to be 64 bits wide. On a 32-bit platform it stops at 4294967295, the conversion
  to a duration never wraps, and the wrapping half of `DurationExactIff` does not arise.

## Findings

| source | as written | input that shows it | evidently intended | confidence | as-written member | corrected member |
|---|---|---|---|---|---|---|
| api/v1alpha3/awsrole_types.go:57-58 | `sha256.New()` is fed nothing, and `Sum(b)` appends the digest of the empty input to `b`; the result is the gob encoding plus SHA-256("") | any identity with a non-empty encoding, such as the zero-valued one: the result is longer than 32 bytes and begins with the plain encoding | a fixed-length digest of the encoding, `sha256.Sum256(encoding)` | high; not executed | Fingerprint.HashIsNotADigest | Fingerprint.CorrectedHash |
| api/v1alpha3/awsrole_types.go:76-90 | the three loops append `&policyARN`, `&key`/`&value` and `&tagKey`; when the module's go.mod declares a Go language version below 1.22, each loop variable is one variable shared by all iterations | PolicyARNs = ["a", "b"]: both descriptors name "b"; tags likewise all carry the last visited pair | one descriptor, tag and transitive key per element, each with its own value | medium (depends on the module's go.mod language version being below 1.22, which is not part of this model); not executed | AssumeRole.AliasedLoopValuesLoseEntries | AssumeRole.BuildParams |

=== FILE: assume_role.dfy ===
/** Construction of the assume-role parameters from an identity's declared fields
    (`setNewAssumeRoleProvider`). Pure field remapping: nothing here can fail. */
module AssumeRole {
  import opened Wrappers
  import opened GoInt
  import opened RoleTypes

  /** Nanoseconds per second: Go's `time.Second`. */
  const NANOS_PER_SECOND: int := 1_000_000_000

  /** Largest session duration in seconds whose conversion to a `time.Duration` does not wrap. */
  const MAX_EXACT_SECONDS: int := 9_223_372_036

  /** Bounds the declarative schema puts on `DurationSeconds`. */
  const MIN_DURATION_SECONDS: int := 900
  const MAX_DURATION_SECONDS: int := 43_200

  // ---------------------------------------------------------------------------
  // Attached policies and transitive tag keys: one entry per input, in order.
  // ---------------------------------------------------------------------------

  /** One policy descriptor per attached policy ARN, appended in input order. */
  function PolicyDescriptors(arns: seq<string>): (r: seq<PolicyDescriptor>)
    ensures |r| == |arns|
    ensures forall k :: 0 <= k < |arns| ==> r[k].arn == arns[k]
  {
    if arns == [] then []
    else PolicyDescriptors(arns[..|arns| - 1]) + [PolicyDescriptor(arns[|arns| - 1])]
  }

  /** The ARNs the descriptors name, in order. */
  function DescriptorArns(ds: seq<PolicyDescriptor>): (r: seq<string>)
    ensures |r| == |ds|
  {
    if ds == [] then [] else [ds[0].arn] + DescriptorArns(ds[1..])
  }

  /** Reading the ARNs back out of the descriptors gives the attached policy list unchanged. */
  lemma {:induction false} DescriptorArnsRoundTrip(arns: seq<string>)
    ensures DescriptorArns(PolicyDescriptors(arns)) == arns
  {
    var ds := PolicyDescriptors(arns);
    DescriptorArnsElements(ds);
  }

  lemma {:induction false} DescriptorArnsElements(ds: seq<PolicyDescriptor>)
    ensures forall k :: 0 <= k < |ds| ==> DescriptorArns(ds)[k] == ds[k].arn
  {
    if ds != [] {
      DescriptorArnsElements(ds[1..]);
    }
  }

  // ---------------------------------------------------------------------------
  // Session tags: one tag per map entry, in Go's unspecified map iteration order.
  // ---------------------------------------------------------------------------

  predicate Distinct<T(==)>(s: seq<T>) {
    forall i, j :: 0 <= i < j < |s| ==> s[i] != s[j]
  }

  /** `order` is an order in which a Go `range` over `m` may visit its keys:
      every key exactly once and nothing else. The run time picks one; the model takes it as input. */
  predicate IsIterationOrder(order: seq<string>, m: map<string, string>) {
    Distinct(order) && (forall k :: k in order ==> k in m) && (forall k :: k in m ==> k in order)
  }

  /** One tag per visited key, appended in visiting order. */
  function TagList(m: map<string, string>, order: seq<string>): (r: seq<Tag>)
    requires forall k :: k in order ==> k in m
    ensures |r| == |order|
    ensures forall i :: 0 <= i < |r| ==> r[i].key == order[i] && r[i].value == m[order[i]]
  {
    if order == [] then []
    else TagList(m, order[..|order| - 1]) + [Tag(order[|order| - 1], m[order[|order| - 1]])]
  }

  /** A sequence without repetitions has as many distinct elements as it has positions. */
  lemma {:induction false} DistinctCardinality<T>(s: seq<T>)
    requires Distinct(s)
    ensures |set x | x in s| == |s|
  {
    if s != [] {
      var rest := s[1..];
      assert Distinct(rest) by {
        forall i, j | 0 <= i < j < |rest| ensures rest[i] != rest[j] {
          assert rest[i] == s[i + 1] && rest[j] == s[j + 1];
        }
      }
      DistinctCardinality(rest);
      assert s[0] !in rest by {
        forall i | 0 <= i < |rest| ensures rest[i] != s[0] {
          assert rest[i] == s[i + 1];
        }
      }
      assert (set x | x in s) == {s[0]} + (set x | x in rest) by {
        forall x | x in s ensures x == s[0] || x in rest {
          var i :| 0 <= i < |s| && s[i] == x;
          if i > 0 { assert rest[i - 1] == x; }
        }
      }
    }
  }

  /** The tag list holds exactly the map's entries, each once: as many tags as entries,
      no key twice, every tag an entry of the map and every entry a tag. */
  lemma TagListMatchesMap(m: map<string, string>, order: seq<string>)
    requires IsIterationOrder(order, m)
    ensures |TagList(m, order)| == |m|
    ensures forall i, j :: 0 <= i < j < |TagList(m, order)| ==> TagList(m, order)[i].key != TagList(m, order)[j].key
    ensures forall t: Tag :: t in TagList(m, order) <==> t.key in m && t.value == m[t.key]
  {
    var r := TagList(m, order);
    DistinctCardinality(order);
    assert (set x | x in order) == m.Keys;
    forall t: Tag | t.key in m && t.value == m[t.key] ensures t in r {
      var i :| 0 <= i < |order| && order[i] == t.key;
      assert r[i] == t;
    }
  }

  /** Whatever order the run time picks, the tags form the same set: the map's items. */
  lemma TagListOrderIrrelevant(m: map<string, string>, order1: seq<string>, order2: seq<string>)
    requires IsIterationOrder(order1, m) && IsIterationOrder(order2, m)
    ensures |TagList(m, order1)| == |TagList(m, order2)|
    ensures forall t :: t in TagList(m, order1) <==> t in TagList(m, order2)
    ensures (set t | t in TagList(m, order1) :: (t.key, t.value)) == m.Items
  {
    TagListMatchesMap(m, order1);
    TagListMatchesMap(m, order2);
    var r := TagList(m, order1);
    forall p | p in m.Items ensures p in (set t | t in r :: (t.key, t.value)) {
      assert Tag(p.0, p.1) in r;
    }
  }

  // ---------------------------------------------------------------------------
  // Session duration: `time.Duration(DurationSeconds) * time.Second`, on int64.
  // ---------------------------------------------------------------------------

  /** The session duration as a Go `time.Duration`: the unsigned seconds are converted to
      int64 and multiplied by one second, both steps wrapping at 64 bits. */
  function DurationNanos(seconds: uint64): (r: int)
    ensures InInt64(r)
    ensures seconds <= MAX_EXACT_SECONDS ==> r == seconds * NANOS_PER_SECOND
  {
    MulInt64(Uint64ToInt64(seconds), NANOS_PER_SECOND)
  }

  /** The conversion is exact precisely up to 9223372036 seconds; above that it wraps. */
  lemma DurationExactIff(seconds: uint64)
    ensures DurationNanos(seconds) == seconds * NANOS_PER_SECOND <==> seconds <= MAX_EXACT_SECONDS
  {
  }

  /** Within the schema's bounds the duration is exact and at most 4.32e13 nanoseconds. */
  lemma DurationWithinSchemaBounds(seconds: uint64)
    requires MIN_DURATION_SECONDS <= seconds <= MAX_DURATION_SECONDS
    ensures DurationNanos(seconds) == seconds * NANOS_PER_SECOND
    ensures 900_000_000_000 <= DurationNanos(seconds) <= 43_200_000_000_000
  {
  }

  // ---------------------------------------------------------------------------
  // The assembled parameter record.
  // ---------------------------------------------------------------------------

  /** The parameters `setNewAssumeRoleProvider` sets on the SDK provider, given the order
      in which the run time visits the session tags. External ID and source-identity
      reference are not among them. */
  function BuildParams(spec: RoleIdentity, order: seq<string>): (p: AssumeRoleParams)
    requires IsIterationOrder(order, spec.tags)
    ensures p.roleArn == spec.role.roleArn
    ensures p.roleSessionName == spec.role.sessionName
    ensures p.policy == Some(spec.role.inlinePolicy)
    ensures p.transitiveTagKeys == spec.transitiveTags
    ensures |p.policyArns| == |spec.role.policyArns|
    ensures forall k :: 0 <= k < |p.policyArns| ==> p.policyArns[k].arn == spec.role.policyArns[k]
    ensures |p.tags| == |spec.tags|
    ensures forall t :: t in p.tags <==> t.key in spec.tags && t.value == spec.tags[t.key]
    ensures InInt64(p.durationNanos)
    ensures spec.role.durationSeconds <= MAX_EXACT_SECONDS ==>
              p.durationNanos == spec.role.durationSeconds * NANOS_PER_SECOND
  {
    TagListMatchesMap(spec.tags, order);
    DurationExactIff(spec.role.durationSeconds);
    AssumeRoleParams(
      roleArn := spec.role.roleArn,
      roleSessionName := spec.role.sessionName,
      tags := TagList(spec.tags, order),
      transitiveTagKeys := spec.transitiveTags,
      durationNanos := DurationNanos(spec.role.durationSeconds),
      policy := Some(spec.role.inlinePolicy),
      policyArns := PolicyDescriptors(spec.role.policyArns))
  }

  /** The parameters depend on the iteration order only through the order of the tag list:
      built under two orders they agree on every other field and hold the same tags. */
  lemma BuildParamsOrderIrrelevant(spec: RoleIdentity, order1: seq<string>, order2: seq<string>)
    requires IsIterationOrder(order1, spec.tags) && IsIterationOrder(order2, spec.tags)
    ensures BuildParams(spec, order1).(tags := []) == BuildParams(spec, order2).(tags := [])
    ensures forall t :: t in BuildParams(spec, order1).tags <==> t in BuildParams(spec, order2).tags
  {
  }

  /** Declared fields the builder does not read never influence the parameters. */
  lemma BuildParamsIgnoresExternalIdAndSource(spec: RoleIdentity, externalId: string, source: string, order: seq<string>)
    requires IsIterationOrder(order, spec.tags)
    ensures BuildParams(spec, order) ==
            BuildParams(spec.(externalId := externalId, sourceIdentitySecretName := source), order)
  {
  }

  // ---------------------------------------------------------------------------
  // The builder loops as written when the module declares a Go language version
  // below 1.22, where `&loopVar` is the address of one variable shared by every iteration.
  // ---------------------------------------------------------------------------

  /** What each pointer appended by a `for _, x := range xs { append(.., &x) }` loop reads once
      the loop is over, when the loop variable is shared: the last element, in every slot. */
  function AliasedLoopValues<T>(xs: seq<T>): (r: seq<T>)
    ensures |r| == |xs|
    ensures forall k :: 0 <= k < |r| ==> r[k] == xs[|xs| - 1]
  {
    if xs == [] then [] else seq(|xs|, _ => xs[|xs| - 1])
  }

  /** The shared loop variable preserves the list only when all its entries are equal:
      `["a", "b"]` becomes `["b", "b"]`. */
  lemma AliasedLoopValuesLoseEntries<T>(xs: seq<T>)
    ensures AliasedLoopValues(xs) == xs <==> forall k :: 0 <= k < |xs| ==> xs[k] == xs[|xs| - 1]
    ensures AliasedLoopValues(["a", "b"]) == ["b", "b"]
  {
  }

  /** As written, under a shared loop variable, every descriptor names the last attached policy;
      with two different ARNs this disagrees with the per-element mapping. */
  lemma AliasedDescriptorsDisagree(arns: seq<string>, i: nat, j: nat)
    requires i < |arns| && j < |arns| && arns[i] != arns[j]
    ensures PolicyDescriptors(AliasedLoopValues(arns)) != PolicyDescriptors(arns)
  {
  }
}

=== FILE: fingerprint.dfy ===
/** The identity's `Hash`. As written it gob-encodes the declared fields and then calls
    `Sum(encoding)` on a SHA-256 state that has consumed nothing: `Sum` appends the digest of the
    empty input to its argument, so the result is the encoding followed by SHA-256(""),
    not a digest of the encoding. */
module Fingerprint {
  import opened Wrappers
  import opened RoleTypes
  import opened AssumeRole
  import opened RoleProvider

  newtype byte = x: int | 0 <= x < 256

  /** A SHA-256 output. */
  type Digest = s: seq<byte> | |s| == 32 witness EmptyDigest

  /** SHA-256 of the empty message (FIPS 180-4, section 6.2):
      e3b0c442 98fc1c14 9afbf4c8 996fb924 27ae41e4 649b934c a495991b 7852b855. */
  const EmptyDigest: seq<byte> := [
    0xe3, 0xb0, 0xc4, 0x42, 0x98, 0xfc, 0x1c, 0x14,
    0x9a, 0xfb, 0xf4, 0xc8, 0x99, 0x6f, 0xb9, 0x24,
    0x27, 0xae, 0x41, 0xe4, 0x64, 0x9b, 0x93, 0x4c,
    0xa4, 0x95, 0x99, 0x1b, 0x78, 0x52, 0xb8, 0x55]

  /** An error reported by the encoder. */
  datatype EncodeError = EncodeError(message: string)

  /** The gob encoder, applied to the identity. It sees only the declared fields:
      the unexported provider slot is skipped by gob. */
  type Encoder = RoleIdentity -> Result<seq<byte>, EncodeError>

  /** Go's `(string, error)` return of `Hash`. */
  datatype HashOutput = HashOutput(hash: seq<byte>, err: Option<EncodeError>)

  ghost predicate Injective(encode: Encoder) {
    forall a: RoleIdentity, b: RoleIdentity ::
      encode(a).Success? && encode(b).Success? && encode(a).value == encode(b).value ==> a == b
  }

  /** `Hash` as written: on an encoding error, the empty string and that error; otherwise the
      encoding with SHA-256("") appended. */
  function Hash(st: IdentityState, encode: Encoder): (r: HashOutput)
    ensures encode(st.spec).Failure? ==> r == HashOutput([], Some(encode(st.spec).error))
    ensures encode(st.spec).Success? ==>
              (r.err.None? &&
               |r.hash| == |encode(st.spec).value| + 32 &&
               r.hash[..|encode(st.spec).value|] == encode(st.spec).value &&
               r.hash[|encode(st.spec).value|..] == EmptyDigest)
    ensures r.err.None? ==> |r.hash| >= 32
  {
    match encode(st.spec)
    case Failure(e) => HashOutput([], Some(e))
    case Success(enc) => HashOutput(enc + EmptyDigest, None)
  }

  /** The hash depends on the declared fields only: neither the provider slot nor a retrieval
      changes it, and identities with equal fields hash equally. */
  lemma HashIgnoresProvider(spec: RoleIdentity, p1: Option<Provider>, p2: Option<Provider>, encode: Encoder)
    ensures Hash(IdentityState(spec, p1), encode) == Hash(IdentityState(spec, p2), encode)
  {
  }

  lemma HashUnaffectedByRetrieve(st: IdentityState, sdk: Sdk, order: seq<string>, encode: Encoder)
    requires st.provider.None? ==> IsIterationOrder(order, st.spec.tags)
    ensures Hash(Retrieve(st, sdk, order).state, encode) == Hash(st, encode)
  {
  }

  /** Appending a fixed suffix is injective, so an injective encoder gives an injective hash:
      two identities whose hashes succeed and agree have equal declared fields. */
  lemma HashInjective(s1: IdentityState, s2: IdentityState, encode: Encoder)
    requires Injective(encode)
    requires Hash(s1, encode).err.None? && Hash(s2, encode).err.None?
    ensures Hash(s1, encode).hash == Hash(s2, encode).hash <==> s1.spec == s2.spec
  {
  }

  /** Two identities differing only in the external ID hash differently under an injective encoder. */
  lemma ExternalIdChangesHash(spec: RoleIdentity, encode: Encoder)
    requires Injective(encode)
    requires encode(spec.(externalId := "a")).Success? && encode(spec.(externalId := "b")).Success?
    ensures Hash(NewIdentity(spec.(externalId := "a")), encode).hash != Hash(NewIdentity(spec.(externalId := "b")), encode).hash
  {
  }

  /** The zero-valued identity, when the encoder accepts it, hashes to a non-empty value
      with no error. */
  lemma ZeroIdentityHashNonEmpty(encode: Encoder)
    requires encode(ZeroIdentity).Success?
    ensures Hash(NewIdentity(ZeroIdentity), encode).err.None?
    ensures |Hash(NewIdentity(ZeroIdentity), encode).hash| > 0
  {
  }

  /** As written, the hash carries the whole encoding in plain text and has a fixed length only
      for an empty encoding: it is 32 bytes long exactly when the encoding is empty. */
  lemma HashIsNotADigest(st: IdentityState, encode: Encoder)
    requires encode(st.spec).Success?
    ensures Hash(st, encode).hash[..|encode(st.spec).value|] == encode(st.spec).value
    ensures |Hash(st, encode).hash| == 32 <==> encode(st.spec).value == []
  {
  }

  /** The fingerprint the hash is evidently meant to be: the SHA-256 digest of the encoding
      (`sha256.Sum256(encoding)`), with the same error behaviour. */
  function CorrectedHash(st: IdentityState, encode: Encoder, sha256: seq<byte> -> Digest): (r: HashOutput)
    ensures encode(st.spec).Failure? ==> r == HashOutput([], Some(encode(st.spec).error))
    ensures r.err.None? ==> |r.hash| == 32
  {
    match encode(st.spec)
    case Failure(e) => HashOutput([], Some(e))
    case Success(enc) => HashOutput(sha256(enc), None)
  }

  /** The corrected fingerprint is fixed-length and, like the one written, depends only on the
      declared fields: equal fields give equal fingerprints whatever the provider slots hold. */
  lemma CorrectedHashDependsOnFieldsOnly(s1: IdentityState, s2: IdentityState, encode: Encoder, sha256: seq<byte> -> Digest)
    requires s1.spec == s2.spec
    ensures CorrectedHash(s1, encode, sha256) == CorrectedHash(s2, encode, sha256)
    ensures CorrectedHash(s1, encode, sha256).err.None? <==> Hash(s1, encode).err.None?
  {
  }

  /** The corrected fingerprint succeeds and fails exactly when the written one does, and always
      has the fixed digest length on success. */
  lemma CorrectedHashFixedLength(st: IdentityState, encode: Encoder, sha256: seq<byte> -> Digest)
    ensures CorrectedHash(st, encode, sha256).err == Hash(st, encode).err
    ensures CorrectedHash(st, encode, sha256).err.None? ==> |CorrectedHash(st, encode, sha256).hash| == |EmptyDigest|
  {
  }
}

=== FILE: goint.dfy ===
/** Go's fixed-width integer semantics, written out over Dafny's unbounded integers. */
module GoInt {

  const TWO_63: int := 0x8000_0000_0000_0000
  const TWO_64: int := 0x1_0000_0000_0000_0000

  /** Go `uint` on a 64-bit platform. */
  type uint64 = x: int | 0 <= x < TWO_64

  predicate InInt64(x: int) {
    -TWO_63 <= x < TWO_63
  }

  /** Two's-complement wrap-around to 64 bits: the value a Go `int64` holds
      after a conversion or an arithmetic operation whose exact result is `x`. */
  function WrapInt64(x: int): (r: int)
    ensures InInt64(r)
    ensures (x - r) % TWO_64 == 0
    ensures InInt64(x) ==> r == x
  {
    var m := x % TWO_64;
    if m >= TWO_63 then m - TWO_64 else m
  }

  /** Go conversion `int64(u)` of an unsigned 64-bit value: reinterprets the bits. */
  function Uint64ToInt64(u: uint64): (r: int)
    ensures InInt64(r)
    ensures u < TWO_63 ==> r == u
    ensures u >= TWO_63 ==> r == u - TWO_64
  {
    WrapInt64(u)
  }

  /** Go `a * b` on `int64` operands: the exact product, wrapped. */
  function MulInt64(a: int, b: int): (r: int)
    requires InInt64(a) && InInt64(b)
    ensures InInt64(r)
    ensures InInt64(a * b) ==> r == a * b
  {
    WrapInt64(a * b)
  }
}

=== FILE: role_provider.dfy ===
/** The identity's credential-provider side (`IsExpired`, `Retrieve`): a provider slot filled
    on first retrieval and then reused, with the SDK provider's own behaviour taken as input. */
module RoleProvider {
  import opened Wrappers
  import opened RoleTypes
  import opened AssumeRole

  /** An error reported by the SDK provider (access denied, network failure, ...). */
  datatype CredentialError = CredentialError(message: string)

  /** What the SDK's assume-role provider answers, at the moment of a call, for a provider built
      with the given parameters: whether its cached credentials are expired, and the outcome of a fetch. */
  datatype Sdk = Sdk(
    isExpired: AssumeRoleParams -> bool,
    retrieve: AssumeRoleParams -> Result<Credentials, CredentialError>)

  /** The identity after a `Retrieve`, with the credentials or error the provider returned. */
  datatype Retrieved = Retrieved(state: IdentityState, creds: Result<Credentials, CredentialError>)

  /** `IsExpired`: expired while nothing is built; afterwards whatever the provider says. */
  function IsExpired(st: IdentityState, sdk: Sdk): (expired: bool)
    ensures st.provider.None? ==> expired
    ensures st.provider.Some? ==> expired == sdk.isExpired(st.provider.value.params)
  {
    match st.provider
    case None => true
    case Some(p) => sdk.isExpired(p.params)
  }

  /** `Retrieve`: builds the provider from the current declared fields if the slot is empty,
      then returns exactly what the provider's fetch returns. Only the slot can change.
      `order` is the order in which the run time visits the tags, used only when building. */
  function Retrieve(st: IdentityState, sdk: Sdk, order: seq<string>): (r: Retrieved)
    requires st.provider.None? ==> IsIterationOrder(order, st.spec.tags)
    ensures r.state.spec == st.spec
    ensures r.state.provider.Some?
    ensures st.provider.Some? ==> r.state.provider == st.provider
    ensures st.provider.None? ==> r.state.provider == Some(AssumeRoleProvider(BuildParams(st.spec, order)))
    ensures r.creds == sdk.retrieve(r.state.provider.value.params)
  {
    var built := if st.provider.None? then st.(provider := Some(AssumeRoleProvider(BuildParams(st.spec, order)))) else st;
    Retrieved(built, sdk.retrieve(built.provider.value.params))
  }

  /** A fresh identity reports itself expired, whatever the SDK would say. */
  lemma FreshIdentityIsExpired(spec: RoleIdentity, sdk: Sdk)
    ensures IsExpired(NewIdentity(spec), sdk)
  {
  }

  /** After the first retrieval, expiry is the SDK provider's verdict on the parameters built
      from the fields as they were at that retrieval. */
  lemma IsExpiredAfterFirstRetrieve(spec: RoleIdentity, sdk: Sdk, order: seq<string>, later: Sdk)
    requires IsIterationOrder(order, spec.tags)
    ensures IsExpired(Retrieve(NewIdentity(spec), sdk, order).state, later) == later.isExpired(BuildParams(spec, order))
  {
  }

  /** A second retrieval reuses the provider built by the first, even when declared fields
      were edited in between: it fetches with the parameters of the original fields. */
  lemma SecondRetrieveReusesProvider(st: IdentityState, sdk1: Sdk, order1: seq<string>,
                                     edited: RoleIdentity, sdk2: Sdk, order2: seq<string>)
    requires st.provider.None? ==> IsIterationOrder(order1, st.spec.tags)
    ensures var first := Retrieve(st, sdk1, order1).state;
            var second := Retrieve(first.(spec := edited), sdk2, order2);
            second.state.provider == first.provider &&
            second.state.spec == edited &&
            second.creds == sdk2.retrieve(first.provider.value.params)
  {
  }

  // ---------------------------------------------------------------------------
  // Sequences of calls on one identity (single-threaded).
  // ---------------------------------------------------------------------------

  /** One thing a caller does with an identity: retrieve, ask for expiry, assign new values to
      the exported fields one by one (`Edit`, which keeps the unexported provider slot), or
      overwrite the whole struct value with a literal (`Replace`, which zeroes the slot). */
  datatype Op =
    | RetrieveOp(sdk: Sdk, order: seq<string>)
    | IsExpiredOp(sdk: Sdk)
    | Edit(spec: RoleIdentity)
    | Replace(spec: RoleIdentity)

  /** Whether the step builds a provider. */
  predicate Builds(st: IdentityState, op: Op) {
    op.RetrieveOp? && st.provider.None?
  }

  predicate StepAllowed(st: IdentityState, op: Op) {
    Builds(st, op) ==> IsIterationOrder(op.order, st.spec.tags)
  }

  /** The identity after one call. Only a retrieval fills the slot and only a whole-value
      replacement empties it; every other call leaves it as it was. */
  function Step(st: IdentityState, op: Op): (st': IdentityState)
    requires StepAllowed(st, op)
    ensures op.Replace? ==> st' == NewIdentity(op.spec)
    ensures op.RetrieveOp? ==> st'.provider.Some? && st'.spec == st.spec
    ensures !op.Replace? && st.provider.Some? ==> st'.provider == st.provider
    ensures !op.RetrieveOp? && !op.Replace? ==> st'.provider == st.provider
  {
    match op
    case RetrieveOp(sdk, order) => Retrieve(st, sdk, order).state
    case IsExpiredOp(_) => st
    case Edit(spec) => st.(spec := spec)
    case Replace(spec) => NewIdentity(spec)
  }

  /** Every retrieval that builds is given a genuine iteration order of the tags of the moment. */
  predicate RunAllowed(st: IdentityState, ops: seq<Op>)
    decreases |ops|
  {
    ops == [] || (StepAllowed(st, ops[0]) && RunAllowed(Step(st, ops[0]), ops[1..]))
  }

  /** The final state of a sequence of calls, and how many providers were constructed along the way. */
  function Run(st: IdentityState, ops: seq<Op>): (r: (IdentityState, nat))
    requires RunAllowed(st, ops)
    decreases |ops|
  {
    if ops == [] then (st, 0)
    else
      var rest := Run(Step(st, ops[0]), ops[1..]);
      (rest.0, rest.1 + if Builds(st, ops[0]) then 1 else 0)
  }

  predicate HasRetrieve(ops: seq<Op>) {
    exists i :: 0 <= i < |ops| && ops[i].RetrieveOp?
  }

  /** How many calls replace the whole value. */
  function Replaces(ops: seq<Op>): nat {
    if ops == [] then 0 else (if ops[0].Replace? then 1 else 0) + Replaces(ops[1..])
  }

  lemma {:induction false} NoReplaces(ops: seq<Op>)
    requires forall j :: 0 <= j < |ops| ==> !ops[j].Replace?
    ensures Replaces(ops) == 0
  {
    if ops != [] {
      assert forall j :: 0 <= j < |ops[1..]| ==> ops[1..][j] == ops[j + 1];
      NoReplaces(ops[1..]);
    }
  }

  /** Each value of the identity constructs at most one provider: a run builds at most one
      provider more than it replaces the whole value. Without replacements at most one is built,
      exactly one when the slot started empty and some call retrieves, and once built the provider
      survives every later call unchanged. */
  lemma {:induction false} RunBuildsAtMostOnce(st: IdentityState, ops: seq<Op>)
    requires RunAllowed(st, ops)
    ensures Run(st, ops).1 <= (if st.provider.None? then 1 else 0) + Replaces(ops)
    ensures Replaces(ops) == 0 ==>
              (Run(st, ops).1 <= 1 &&
               (Run(st, ops).1 == 1 <==> st.provider.None? && HasRetrieve(ops)) &&
               (st.provider.Some? ==> Run(st, ops).0.provider == st.provider) &&
               (Run(st, ops).0.provider.Some? <==> st.provider.Some? || HasRetrieve(ops)))
    decreases |ops|
  {
    if ops != [] {
      var next := Step(st, ops[0]);
      RunBuildsAtMostOnce(next, ops[1..]);
      if HasRetrieve(ops[1..]) {
        var i :| 0 <= i < |ops[1..]| && ops[1..][i].RetrieveOp?;
        assert ops[i + 1].RetrieveOp?;
      }
      if HasRetrieve(ops) && !ops[0].RetrieveOp? {
        var i :| 0 <= i < |ops| && ops[i].RetrieveOp?;
        assert ops[1..][i - 1].RetrieveOp?;
      }
    }
  }

  /** Replacing the whole value after a retrieval empties the slot, so the next retrieval
      builds a second provider, from the new fields. */
  lemma ReplaceStartsNewBuild(st: IdentityState, sdk1: Sdk, order1: seq<string>,
                              spec: RoleIdentity, sdk2: Sdk, order2: seq<string>)
    requires st.provider.None? ==> IsIterationOrder(order1, st.spec.tags)
    requires IsIterationOrder(order2, spec.tags)
    ensures var ops := [RetrieveOp(sdk1, order1), Replace(spec), RetrieveOp(sdk2, order2)];
            RunAllowed(st, ops) &&
            Run(st, ops).0.provider == Some(AssumeRoleProvider(BuildParams(spec, order2))) &&
            Run(st, ops).1 == (if st.provider.None? then 2 else 1)
  {
    var ops := [RetrieveOp(sdk1, order1), Replace(spec), RetrieveOp(sdk2, order2)];
    var s1 := Step(st, ops[0]);
    var s2 := Step(s1, ops[1]);
    var s3 := Step(s2, ops[2]);
    assert ops[1..] == [Replace(spec), RetrieveOp(sdk2, order2)];
    assert ops[1..][1..] == [RetrieveOp(sdk2, order2)];
    assert ops[1..][1..][1..] == [];
    assert RunAllowed(s3, []) && Run(s3, []) == (s3, 0);
    assert RunAllowed(s2, ops[1..][1..]) && Run(s2, ops[1..][1..]) == (s3, 1);
    assert RunAllowed(s1, ops[1..]) && Run(s1, ops[1..]) == (s3, 1);
  }

  /** Unless the whole value is replaced afterwards, the provider in the slot at the end is the one
      built by the first retrieval, from the declared fields current at that retrieval: later
      field edits never reach it. */
  lemma {:induction false} RunKeepsFirstBuild(st: IdentityState, ops: seq<Op>, i: nat)
    requires RunAllowed(st, ops)
    requires st.provider.None?
    requires i < |ops| && ops[i].RetrieveOp?
    requires forall j :: 0 <= j < i ==> !ops[j].RetrieveOp?
    requires forall j :: i < j < |ops| ==> !ops[j].Replace?
    ensures RunAllowed(st, ops[..i])
    ensures var before := Run(st, ops[..i]).0;
            before.provider.None? &&
            IsIterationOrder(ops[i].order, before.spec.tags) &&
            Run(st, ops).0.provider == Some(AssumeRoleProvider(BuildParams(before.spec, ops[i].order)))
    decreases |ops|
  {
    var next := Step(st, ops[0]);
    if i == 0 {
      assert ops[..0] == [];
      NoReplaces(ops[1..]);
      RunBuildsAtMostOnce(next, ops[1..]);
    } else {
      assert ops[1..][i - 1] == ops[i];
      forall j | 0 <= j < i - 1 ensures !ops[1..][j].RetrieveOp? {
        assert ops[1..][j] == ops[j + 1];
      }
      forall j | i - 1 < j < |ops| - 1 ensures !ops[1..][j].Replace? {
        assert ops[1..][j] == ops[j + 1];
      }
      RunKeepsFirstBuild(next, ops[1..], i - 1);
      assert ops[..i][0] == ops[0];
      assert ops[..i][1..] == ops[1..][..i - 1];
    }
  }
}

=== FILE: role_types.dfy ===
/** The declared shape of an assume-role identity, the parameter record handed to the
    STS assume-role credential provider, and the identity's run-time state. */
module RoleTypes {
  import opened Wrappers
  import opened GoInt

  /** How to assume a role: the `AWSRole` struct. */
  datatype AWSRole = AWSRole(
    roleArn: string,
    sessionName: string,
    durationSeconds: uint64,
    inlinePolicy: string,
    policyArns: seq<string>)

  /** The declared (exported) fields of an `AWSRoleIdentity`: the embedded role plus the
      identity's own fields. The unexported provider slot is not part of it. */
  datatype RoleIdentity = RoleIdentity(
    role: AWSRole,
    externalId: string,
    tags: map<string, string>,
    transitiveTags: seq<string>,
    sourceIdentitySecretName: string)

  /** An attached managed policy, as STS's `PolicyDescriptorType`. */
  datatype PolicyDescriptor = PolicyDescriptor(arn: string)

  /** A session tag, as STS's `Tag`. */
  datatype Tag = Tag(key: string, value: string)

  /** The fields the identity sets on the SDK's assume-role provider.
      `policy` is a pointer in the SDK, hence an `Option`; `durationNanos` is a Go `time.Duration` (an int64). */
  datatype AssumeRoleParams = AssumeRoleParams(
    roleArn: string,
    roleSessionName: string,
    tags: seq<Tag>,
    transitiveTagKeys: seq<string>,
    durationNanos: int,
    policy: Option<string>,
    policyArns: seq<PolicyDescriptor>)

  /** The SDK's assume-role credential provider, identified by the parameters it was built with.
      Its credential cache lives inside the SDK and is not part of this model. */
  datatype Provider = AssumeRoleProvider(params: AssumeRoleParams)

  /** Temporary credentials, as the SDK's `credentials.Value`. */
  datatype Credentials = Credentials(
    accessKeyId: string,
    secretAccessKey: string,
    sessionToken: string,
    providerName: string)

  /** An `AWSRoleIdentity` at run time: its declared fields and its lazily built provider slot. */
  datatype IdentityState = IdentityState(spec: RoleIdentity, provider: Option<Provider>)

  /** A freshly declared identity: nothing has been built yet. */
  function NewIdentity(spec: RoleIdentity): (st: IdentityState)
    ensures st.spec == spec && st.provider.None?
  {
    IdentityState(spec, None)
  }

  /** The zero-valued identity a Go composite literal with no fields set produces. */
  const ZeroIdentity: RoleIdentity :=
    RoleIdentity(AWSRole("", "", 0, "", []), "", map[], [], "")
}

=== FILE: wrappers.dfy ===
/** Optional values and fallible results, standing in for Go's nil pointers and `(value, error)` pairs. */
module Wrappers {

  /** A value that may be absent (a Go pointer that may be nil). */
  datatype Option<+T> = None | Some(value: T)

  /** Either a value or an error (a Go `(value, error)` return where exactly one half is meaningful). */
  datatype Result<+R, +E> = Success(value: R) | Failure(error: E)
}
